=== FILE: README.md ===
# Carousel state of the studio portfolio site

The site is a React single-page portfolio. Its only real logic is the carousel state on two pages. This project models that state as pure event-to-state transitions over integer indices and proves its properties in Dafny.

- **Home page** (`pages/Home.tsx`). An "infinite" featured-work carousel.
  - A raw position starts at 10000 and is never wrapped.
  - The position is folded into the six works by JavaScript's `((i % n) + n) % n`.
  - A one-second autoplay interval adds one per tick.
  - The arrow buttons move by one. They switch autoplay off and re-arm a single three-second resume timeout, so the timeout acts as a debounce.
  - Five cards (offsets −2..2) are drawn at a horizontal shift of offset × spacing, with a visual weight (scale, opacity, zIndex, blur, grayscale) that depends only on the distance from the centre.
  - Clicking the centre card opens a modal viewer. The modal moves without wrapping, can select a peripheral card, can close, and shows an "NN / NN" counter.
- **Works page** (`pages/Works.tsx`). A gallery of two sections (four vertical and three horizontal videos) plus a full-screen carousel.
  - Prev and next are clamped to the list.
  - Arrow keys and Escape act only in carousel mode.
  - A press/release pair with more than 50 px of horizontal travel moves by one item.
  - Entering carousel mode forces the sound off.
  - A video can sound only if it is the active one.
  - The active card carries a mute overlay that hides two seconds after the last interaction.

Modules:

- `Wrappers` holds `Option`.
- `CircularIndex` models JavaScript's truncating `%` and the wrap mapping. It proves the wrap equals the Euclidean remainder.
- `Decimal` models `String(n)`, `padStart` and the counter text, with a parse-back round trip.
- `HomeCarousel` models the Home carousel and modal.
- `MediaControls` models the overlay.
- `WorksViewer` models the Works page.

Timers are modelled as events.
- The autoplay interval's callback is `Tick`. It changes nothing while autoplay is off, because the effect clears the interval then.
- Each timeout carries a fresh token. The state holds the token of the one timeout still armed. A firing event with any other token stands for a timeout that was cleared, and it changes nothing.
- Durations (1000 ms, 3000 ms, 2000 ms) appear only as labelled constants.

React effects are folded into each Works step:
- the mute-on-entering-carousel effect;
- the remount of the overlay when the active card's key changes.

Facts about the code that the model keeps:
- The Works page has no drag-start threshold. A press always starts tracking.
- A release clears the drag flag at once, with no delay.
- Nothing suppresses a click after a drag.
- On the Home carousel, a click on a peripheral card does nothing. It does not bring that card to the centre.
- Nothing rejects an empty list. Both lists are constants, and the wrap mapping requires `n > 0`.
- Pointer coordinates are reals, as `clientX` is fractional, so a travel of 50.5 px is a swipe.

## Model

| member | source | states |
|---|---|---|
| CircularIndex.JsRem | pages/Home.tsx:99 | JavaScript's `%` with a positive divisor: the remainder lies strictly between −n and n and has the sign of the dividend |
| CircularIndex.JsRemCongruent | pages/Home.tsx:99 | JavaScript's remainder is congruent to the dividend modulo the divisor |
| CircularIndex.Wrap | pages/Home.tsx:98-101 | the data index for any raw position, negative ones included, lies in [0, n) |
| CircularIndex.WrapIsEuclideanMod | pages/Home.tsx:99 | `((i % n) + n) % n` in JavaScript equals the Euclidean remainder of i by n |
| CircularIndex.WrapOfIndex | pages/Home.tsx:98-101 | a position already in [0, n) maps to itself |
| CircularIndex.WrapPeriodic | pages/Home.tsx:98-101 | shifting the position by n, either way, shows the same item |
| CircularIndex.WrapMinusOne | pages/Home.tsx:98-101 | position −1 shows item n−1 |
| CircularIndex.WrapSucc | pages/Home.tsx:98-101 | one step forward shows the next item, and the last item is followed by the first |
| CircularIndex.WrapPred | pages/Home.tsx:98-101 | one step back shows the previous item, and the first item is preceded by the last |
| CircularIndex.WrapInjectiveWithinLap | pages/Home.tsx:98-101 | two positions less than one lap apart show different items |
| Decimal.ToDecimal | pages/Home.tsx:371 | `String(v)` is a non-empty digit string with a leading zero only for 0 |
| Decimal.ParseToDecimal | pages/Home.tsx:371 | reading back `String(v)` gives v |
| Decimal.PadStart | pages/Home.tsx:371 | `padStart` reaches the width or leaves a longer string alone, keeps the string as a suffix and fills the rest |
| Decimal.FieldReadsBack | pages/Home.tsx:371 | a zero-padded field is all digits, at least two long, exactly two below 100, and reads back as its number |
| Decimal.Counter | pages/Home.tsx:371 | below 100 the counter is seven characters: two digits for the position, " / ", two digits for the total |
| Decimal.CounterRoundTrip | pages/Home.tsx:371 | the counter text parses back to the position and total it shows, for any size |
| HomeCarousel.Init | pages/Home.tsx:63-67 | the mount state is valid: raw position 10000, autoplay on, no resume timeout armed, modal closed |
| HomeCarousel.AutoTick | pages/Home.tsx:87-95 | while autoplay is on a tick adds exactly one to the position and nothing else; while off nothing changes |
| HomeCarousel.TicksAdvance | pages/Home.tsx:87-95 | with autoplay on, k ticks advance the position by exactly k with no skipping or batching |
| HomeCarousel.TicksIdle | pages/Home.tsx:87-95 | with autoplay off, any number of ticks changes nothing |
| HomeCarousel.Interact | pages/Home.tsx:103-116 | a manual move changes the position by exactly −1 or +1, turns autoplay off and arms one resume timeout with a token never used before |
| HomeCarousel.Resume | pages/Home.tsx:110-112 | only the armed resume timeout turns autoplay back on; a cleared one changes nothing |
| HomeCarousel.InteractionCancelsPendingResume | pages/Home.tsx:107-112 | after a manual move, the resume timeout armed by any earlier move no longer has an effect |
| HomeCarousel.ResumeOnlyAfterLastInteraction | pages/Home.tsx:103-116 | after the last manual move, autoplay is on exactly when that move's timeout has fired, whatever else happens |
| HomeCarousel.WeightAt | pages/Home.tsx:263-266 | the centre alone has zIndex 20, zero blur, scale 1.15 and full opacity, and these are the maxima (blur the minimum) |
| HomeCarousel.WeightSymmetric | pages/Home.tsx:263-266 | the style of offset −d equals that of offset d |
| HomeCarousel.WeightMonotone | pages/Home.tsx:263-266 | as the distance grows, zIndex, scale and opacity never rise and blur never falls |
| HomeCarousel.Window | pages/Home.tsx:250-266 | five cards at offsets −2..2; the card at offset d has raw position a+d (its key), shows a valid item and carries the weight for offset d |
| HomeCarousel.WindowNeighbours | pages/Home.tsx:250-253 | the centre card shows the wrapped position and its neighbours show the cyclically previous and next items |
| HomeCarousel.WindowItemsDistinct | pages/Home.tsx:250-253 | with at least five works the five cards show five different works |
| HomeCarousel.WindowSlides | pages/Home.tsx:250-252 | advancing the position by one slides every card one slot to the left |
| HomeCarousel.WindowPeriodic | pages/Home.tsx:250-252 | a whole lap of the position shows the same five items |
| HomeCarousel.ClickCard | pages/Home.tsx:271 | a card click opens the modal only at offset 0, on the item the centre card shows; other clicks change nothing |
| HomeCarousel.ModalPrevious | pages/Home.tsx:119-123 | modal prev moves back by one, is a no-op at 0, and is a no-op while the modal is closed |
| HomeCarousel.ModalNextItem | pages/Home.tsx:125-129 | modal next moves forward by one, is a no-op at n−1, and is a no-op while the modal is closed |
| HomeCarousel.ModalMovesInverse | pages/Home.tsx:119-129 | away from the ends, modal prev and modal next undo each other |
| HomeCarousel.CloseModal | pages/Home.tsx:356 | close always clears the selection and changes nothing else |
| HomeCarousel.SelectInModal | pages/Home.tsx:418 | a modal card click selects that card; clicking the selected card changes nothing |
| HomeCarousel.ModalCounter | pages/Home.tsx:365-372 | the counter is shown exactly while the modal is open and reads back as selection+1 and n; below 100 it is the seven-character zero-padded "NN / NN" |
| HomeCarousel.Step | pages/Home.tsx:87-129 | every page event keeps the state valid. Only ticks and arrows move the position. Autoplay turns on only when the armed resume timeout fires. Per event: a tick adds one while autoplay is on; prev goes back one and next forward one, each switching autoplay off and arming a fresh timeout; only the centre card click opens the modal on the centre item; modal prev/next move the selection with clamping; close clears it; a modal card click selects that card |
| HomeCarousel.RunPreservesValid | pages/Home.tsx:119-129 | in any run of page events the modal selection stays within [0, n) and the timer bookkeeping stays consistent |
| HomeCarousel.InitialCentreItem | pages/Home.tsx:66 | raw position 10000 shows the fifth of the six works (index 4) |
| MediaControls.Interact | pages/Works.tsx:36-40 | an interaction shows the overlay and arms one hide timeout with a fresh token |
| MediaControls.Mount | pages/Works.tsx:42-45 | a new overlay starts visible with its hide timeout armed |
| MediaControls.Hide | pages/Works.tsx:39 | only the armed hide timeout hides the overlay; a cleared one changes nothing |
| MediaControls.Step | pages/Works.tsx:36-45 | overlay events keep it visible exactly while a hide timeout is armed. An interaction shows it and arms a fresh timeout; the armed timeout hides it; any other timeout changes nothing |
| MediaControls.HidesOnlyAfterLastInteraction | pages/Works.tsx:36-40 | after the last interaction, the overlay is hidden exactly when that interaction's timeout has fired |
| MediaControls.InteractionCancelsPendingHide | pages/Works.tsx:38-39 | an interaction clears the hide timeout armed before it |
| WorksViewer.Init | pages/Works.tsx:67-74 | the mount state is valid: gallery mode, index 0 of the vertical list, muted, not dragging, and the overlay shown with its hide timeout armed |
| WorksViewer.SelectWork | pages/Works.tsx:84-88 | a gallery click sets the section, the index and carousel mode, and changes nothing else (sound, drag state, overlay) |
| WorksViewer.OpenWork | pages/Works.tsx:84-90 | opening a work from the gallery shows it in its section's list, muted, in a valid state |
| WorksViewer.Previous | pages/Works.tsx:92 | prev moves back by one and is a no-op at the first item; nothing else changes |
| WorksViewer.Next | pages/Works.tsx:93 | next moves forward by one and is a no-op at the last item; nothing else changes |
| WorksViewer.NavigationInverse | pages/Works.tsx:92-93 | away from the ends, prev and next undo each other |
| WorksViewer.ClampAtLastItem | pages/Works.tsx:93 | in the four-item vertical list, next from item 0 shows 1, 2, 3, 3 |
| WorksViewer.Key | pages/Works.tsx:95-101 | in carousel mode ArrowLeft is a clamped prev, ArrowRight a clamped next and Escape returns to the gallery; keys do nothing in gallery mode; unknown keys do nothing; no key touches the section, the sound or the overlay |
| WorksViewer.KeysMatchButtons | pages/Works.tsx:95-101 | in carousel mode ArrowLeft is the prev button, ArrowRight the next button and Escape the back-to-gallery button |
| WorksViewer.Press | pages/Works.tsx:108-112 | a press starts tracking at its x and changes nothing else |
| WorksViewer.Release | pages/Works.tsx:114-120 | an untracked release is ignored. A tracked release always clears the drag flag. Travel (a real number of pixels) over 50 px acts as one clamped next, travel under −50 px as one clamped prev, and anything else does not move |
| WorksViewer.ReleaseWithoutPressIgnored | pages/Works.tsx:115 | from a state not tracking a gesture, any run of events without a press keeps the drag flag clear, and a release after it changes nothing |
| WorksViewer.SwipeGesture | pages/Works.tsx:108-120 | for any real coordinates, a press then a release gives exactly one clamped next, one clamped prev or no move, by the sign and size of start−end, and always ends the gesture |
| WorksViewer.Focus | pages/Works.tsx:261 | a card click makes that card active; clicking the active card changes nothing |
| WorksViewer.FlipMute | pages/Works.tsx:272 | the overlay click flips the sound, counts as an overlay interaction, and changes nothing else |
| WorksViewer.ToggleMuteOnlyFlips | pages/Works.tsx:272 | through the whole step, the mute click flips the sound and shows the overlay, leaves everything else alone, and two clicks restore the sound |
| WorksViewer.Effects | pages/Works.tsx:76-82 | entering carousel mode forces the sound off; a new active card gets a freshly mounted overlay |
| WorksViewer.EnteringCarouselMutes | pages/Works.tsx:76-82 | every step from gallery into carousel mode is a gallery click and arrives muted |
| WorksViewer.NewActiveCardShowsOverlay | pages/Works.tsx:271-273 | when the active card changes, its overlay is visible and no hide timeout of the old overlay can hide it |
| WorksViewer.Step | pages/Works.tsx:76-120 | every page event keeps the index within its list. Entering carousel mode mutes. Only the mute click or entering carousel changes the sound. Keys do nothing in gallery mode. Per event: the arrow buttons are a clamped prev/next; the back button returns to the gallery and changes nothing else; a card click makes that card active with a fresh overlay; the overlay's armed hide timeout hides it and any other one changes nothing; a gallery click leaves the drag state alone; unknown keys change nothing; only a press starts tracking a gesture |
| WorksViewer.RunPreservesValid | pages/Works.tsx:92-93 | in any run of page events the active index stays within [0, length of the current list) |
| WorksViewer.VideoMutedAsWritten | pages/Works.tsx:265 | as written, every video but the active one is muted, and the active one is muted exactly when the page is |
| WorksViewer.AudibleAsWritten | pages/Works.tsx:265 | as written, the videos with sound are none when muted and only the active one when unmuted, whatever the view mode |
| WorksViewer.AtMostOneAudibleAsWritten | pages/Works.tsx:265 | under the source's rule at most one video sounds |
| WorksViewer.AudibleInGalleryAsWritten | pages/Works.tsx:263-266 | under the source's rule the hidden carousel's video sounds in gallery mode after open, unmute, Escape |
| WorksViewer.VideoMuted | pages/Works.tsx:265 | corrected: every video is muted in gallery mode; in carousel mode every video but the active one is muted, and the active one exactly when the page is |
| WorksViewer.Audible | pages/Works.tsx:265 | corrected: the videos with sound are only the active one, and only in carousel mode while unmuted |
| WorksViewer.GallerySilent | pages/Works.tsx:265 | under the corrected rule at most one video sounds, and none in gallery mode |
| WorksViewer.HeaderCounter | pages/Works.tsx:241 | the carousel header counter reads back as index+1 and the list length; below 100 it is the seven-character zero-padded "NN / NN" |

## Findings

| source | as written | input that shows it | evidently intended | confidence | as-written member | corrected member |
|---|---|---|---|---|---|---|
| pages/Works.tsx:265 | A carousel video is muted unless it is the active one and the page is unmuted. The carousel stays mounted, only hidden, in gallery mode (lines 197-198). Mute is forced only on entering carousel mode (lines 76-82) | open vertical work 0, click the overlay to unmute, press Escape: the gallery is shown and carousel video 0 has `muted` false | no video of the hidden carousel plays with sound | medium, not executed | WorksViewer.AudibleInGalleryAsWritten | WorksViewer.GallerySilent |

## Left out

- Rendering is not modelled: JSX, CSS classes, the vw/vh/px layout and the floating-point `windowWidth * 0.65` spacing (pages/Home.tsx:255-261, pages/Works.tsx:201-222). The modelled style values are the integer hundredths of the source's constants.
- Real time is not modelled. Timers are tokened events, so "3000 ms after the last interaction" becomes "when the last interaction's timeout fires". Time between events, and the fresh interval's first tick one period after resuming, are not modelled.
- Browser calls are not modelled. This covers video play and its catch (pages/Home.tsx:76-81), the resize listener (pages/Home.tsx:72-84) and `window.scrollTo` (pages/Works.tsx:77-78).
- Listener lifecycle is not modelled. The keydown listener is re-registered whenever `activeIndex`, `viewMode` or `currentWorks` changes (pages/Works.tsx:103-106), and the model treats it as always seeing the current state.
- Unmount is not modelled. Home never clears its pending resume timeout on unmount, and React ignores a state update on an unmounted component.
- DOM event plumbing is not modelled: the click that can follow a release, the mouse events browsers emulate after touch, and `stopPropagation` on the buttons.
- Some modal events arrive only while the modal is open, because the closed modal ignores pointer events. The model does not enforce this. Modal prev and next check for a closed modal themselves, as the source does. A modal card click on a closed modal would open it in the model.
- Some pointer events do not arrive in gallery mode, because the hidden carousel receives none. The model accepts them there, as the handlers do not check the mode.
- In carousel mode the gallery receives no pointer events (pages/Works.tsx:125). The model does not enforce this: `WorksViewer.Step` accepts a gallery click there and switches section and index without muting. This admits more runs than the page can produce, so the run properties still hold for the page.
- While the Home modal is open it covers the whole page (pages/Home.tsx:333), so the carousel arrows and cards receive no clicks. The model does not enforce this: `HomeCarousel.Step` accepts `PrevArrow`, `NextArrow` and `CardClick` with the modal open. This admits more runs than the page can produce, so the run properties still hold for the page.
- Positions are unbounded integers. The source's position is a JavaScript number and would lose precision only after 2^53 ticks.
- Item contents (titles, categories, URLs) are not modelled. The model keeps only the list lengths, because no logic depends on the contents.
- The rest of the site is outside this model: `Reveal`, `Navbar`, `App` (preloader and routing), `Store`, `Cart`, `Contact`, `Button` and `Footer`.

=== FILE: circular_index.dfy ===
/** The circular index mapper of the home-page carousel: an unbounded raw
    position is folded into a list of `n` items by taking JavaScript's
    remainder, adding `n`, and taking the remainder again.  JavaScript's `%` truncates toward zero (the
    remainder takes the sign of the dividend), unlike Dafny's Euclidean `%`,
    so it is written out here and then proved to agree with the Euclidean
    remainder for every raw position. */
module CircularIndex {

  /** JavaScript's `a % b` for a positive divisor. */
  function JsRem(a: int, b: int): (r: int)
    requires b > 0
    ensures -b < r < b
    ensures a >= 0 ==> 0 <= r
    ensures a <= 0 ==> r <= 0
  {
    if a >= 0 then a % b else -((-a) % b)
  }

  /** The item index shown for raw position `i` in a list of `n` items. */
  function Wrap(i: int, n: int): (r: int)
    requires n > 0
    ensures 0 <= r < n
  {
    JsRem(JsRem(i, n) + n, n)
  }

  /** Division is unique: a quotient/remainder pair with the remainder in
      range is the Euclidean one. */
  lemma {:induction false} DivModUnique(x: int, b: int, q: int, r: int)
    requires b > 0
    requires 0 <= r < b
    requires x == b * q + r
    ensures x / b == q
    ensures x % b == r
  {
    var q0, r0 := x / b, x % b;
    assert x == b * q0 + r0;
    assert b * (q - q0) == r0 - r;
    if q > q0 {
      assert b * (q - q0) == b * (q - q0 - 1) + b;
      MulNonNegative(b, q - q0 - 1);
      assert false;
    } else if q < q0 {
      assert b * (q0 - q) == b * (q0 - q - 1) + b;
      MulNonNegative(b, q0 - q - 1);
      assert false;
    }
  }

  lemma MulNonNegative(a: int, b: int)
    requires a >= 0 && b >= 0
    ensures a * b >= 0
  {
  }

  /** JavaScript's remainder is congruent to the dividend modulo the divisor. */
  lemma {:induction false} JsRemCongruent(a: int, b: int)
    requires b > 0
    ensures JsRem(a, b) % b == a % b
  {
    if a < 0 {
      var m := -a;
      var q, s := m / b, m % b;
      assert m == b * q + s;
      if s == 0 {
        DivModUnique(a, b, -q, 0);
        DivModUnique(0, b, 0, 0);
      } else {
        DivModUnique(a, b, -q - 1, b - s);
        DivModUnique(-s, b, -1, b - s);
      }
    } else {
      DivModUnique(a % b, b, 0, a % b);
    }
  }

  /** The wrapped index is exactly the Euclidean remainder of the raw position. */
  lemma {:induction false} WrapIsEuclideanMod(i: int, n: int)
    requires n > 0
    ensures Wrap(i, n) == i % n
  {
    var inner := JsRem(i, n);
    JsRemCongruent(i, n);
    JsRemCongruent(inner + n, n);
    DivModUnique(inner + n, n, (inner + n) / n, (inner + n) % n);
    assert inner + n == n * ((inner + n) / n) + (inner + n) % n;
    var k := i / n;
    assert i == n * k + i % n;
    assert inner % n == i % n;
    var k2 := inner / n;
    assert inner == n * k2 + inner % n;
    DivModUnique(inner + n, n, k2 + 1, inner % n);
  }

  /** Positions that are already item indices map to themselves. */
  lemma {:induction false} WrapOfIndex(i: int, n: int)
    requires 0 <= i < n
    ensures Wrap(i, n) == i
  {
    WrapIsEuclideanMod(i, n);
    DivModUnique(i, n, 0, i);
  }

  /** Shifting the raw position by a whole lap shows the same item. */
  lemma {:induction false} WrapPeriodic(i: int, n: int)
    requires n > 0
    ensures Wrap(i + n, n) == Wrap(i, n)
    ensures Wrap(i - n, n) == Wrap(i, n)
  {
    ModShift(i, n, 1);
    ModShift(i, n, -1);
    WrapIsEuclideanMod(i, n);
    WrapIsEuclideanMod(i + n, n);
    WrapIsEuclideanMod(i - n, n);
  }

  /** Adding `k` laps leaves the Euclidean remainder unchanged. */
  lemma {:induction false} ModShift(i: int, n: int, k: int)
    requires n > 0
    ensures (i + k * n) % n == i % n
  {
    var q, r := i / n, i % n;
    assert i == n * q + r;
    assert i + k * n == n * (q + k) + r;
    DivModUnique(i + k * n, n, q + k, r);
  }

  /** Position -1 shows the last item. */
  lemma {:induction false} WrapMinusOne(n: int)
    requires n > 0
    ensures Wrap(-1, n) == n - 1
  {
    WrapIsEuclideanMod(-1, n);
    DivModUnique(-1, n, -1, n - 1);
  }

  /** One step forward shows the next item, and the last item is followed
      by the first. */
  lemma {:induction false} WrapSucc(i: int, n: int)
    requires n > 0
    ensures Wrap(i + 1, n) == if Wrap(i, n) == n - 1 then 0 else Wrap(i, n) + 1
  {
    WrapIsEuclideanMod(i, n);
    WrapIsEuclideanMod(i + 1, n);
    assert i == n * (i / n) + i % n;
    if i % n == n - 1 {
      DivModUnique(i + 1, n, i / n + 1, 0);
    } else {
      DivModUnique(i + 1, n, i / n, i % n + 1);
    }
  }

  /** One step back shows the previous item, and the first item is preceded
      by the last. */
  lemma {:induction false} WrapPred(i: int, n: int)
    requires n > 0
    ensures Wrap(i - 1, n) == if Wrap(i, n) == 0 then n - 1 else Wrap(i, n) - 1
  {
    WrapSucc(i - 1, n);
  }

  /** Positions closer together than one lap show different items. */
  lemma {:induction false} WrapInjectiveWithinLap(x: int, y: int, n: int)
    requires n > 0
    requires x < y < x + n
    ensures Wrap(x, n) != Wrap(y, n)
  {
    WrapIsEuclideanMod(x, n);
    WrapIsEuclideanMod(y, n);
    var q, r, d := x / n, x % n, y - x;
    assert x == n * q + r;
    if r + d < n {
      DivModUnique(y, n, q, r + d);
    } else {
      assert y == n * (q + 1) + (r + d - n);
      DivModUnique(y, n, q + 1, r + d - n);
    }
  }
}

=== FILE: decimal.dfy ===
/** The "NN / NN" position counter shown in both viewers: the position
    and the total, each spelled in decimal and left-padded with '0' to two
    characters, joined by " / ".  `String` of a non-negative integer is its decimal spelling without
    leading zeros; `padStart` prepends the fill character up to the width
    and leaves longer strings alone. */
module Decimal {

  predicate IsDigit(c: char) {
    '0' <= c <= '9'
  }

  predicate AllDigits(s: string) {
    forall k :: 0 <= k < |s| ==> IsDigit(s[k])
  }

  function DigitChar(d: nat): (c: char)
    requires d < 10
    ensures IsDigit(c)
  {
    ('0' as int + d) as char
  }

  function DigitValue(c: char): (d: nat)
    requires IsDigit(c)
    ensures d < 10
    ensures DigitChar(d) == c
  {
    c as int - '0' as int
  }

  /** `String(v)` for a non-negative integer `v`. */
  function ToDecimal(v: nat): (s: string)
    ensures 1 <= |s|
    ensures AllDigits(s)
    ensures (s[0] == '0') <==> v == 0
    decreases v
  {
    if v < 10 then [DigitChar(v)] else ToDecimal(v / 10) + [DigitChar(v % 10)]
  }

  /** The value a string of decimal digits denotes (leading zeros allowed). */
  function ParseDecimal(s: string): nat
    requires AllDigits(s)
  {
    if |s| == 0 then 0 else ParseDecimal(s[..|s| - 1]) * 10 + DigitValue(s[|s| - 1])
  }

  /** Reading back the decimal spelling gives the number. */
  lemma {:induction false} ParseToDecimal(v: nat)
    ensures ParseDecimal(ToDecimal(v)) == v
    decreases v
  {
    var s := ToDecimal(v);
    if v >= 10 {
      ParseToDecimal(v / 10);
      assert s[..|s| - 1] == ToDecimal(v / 10);
    }
  }

  /** The spelling of a number below 100 has at most two digits. */
  lemma ToDecimalShort(v: nat)
    ensures v < 10 ==> |ToDecimal(v)| == 1
    ensures 10 <= v < 100 ==> |ToDecimal(v)| == 2
  {
  }

  /** `s.padStart(width, fill)`. */
  function PadStart(s: string, width: nat, fill: char): (r: string)
    ensures |r| == if |s| >= width then |s| else width
    ensures r[|r| - |s|..] == s
    ensures forall k :: 0 <= k < |r| - |s| ==> r[k] == fill
  {
    if |s| >= width then s else seq(width - |s|, _ => fill) + s
  }

  /** Leading zeros do not change the value of a digit string. */
  lemma {:induction false} ParseLeadingZeros(z: string, s: string)
    requires forall k :: 0 <= k < |z| ==> z[k] == '0'
    requires AllDigits(s)
    ensures AllDigits(z + s)
    ensures ParseDecimal(z + s) == ParseDecimal(s)
    decreases |s|
  {
    var t := z + s;
    assert AllDigits(t) by {
      forall k | 0 <= k < |t| ensures IsDigit(t[k]) {
        if k < |z| { assert t[k] == z[k]; } else { assert t[k] == s[k - |z|]; }
      }
    }
    if |s| == 0 {
      assert t == z;
      ParseZeros(z);
    } else {
      var s' := s[..|s| - 1];
      assert t[..|t| - 1] == z + s';
      ParseLeadingZeros(z, s');
    }
  }

  lemma {:induction false} ParseZeros(z: string)
    requires forall k :: 0 <= k < |z| ==> z[k] == '0'
    ensures AllDigits(z)
    ensures ParseDecimal(z) == 0
    decreases |z|
  {
    if |z| > 0 {
      ParseZeros(z[..|z| - 1]);
    }
  }

  /** One zero-padded field of the counter. */
  function Field(v: nat): string {
    PadStart(ToDecimal(v), 2, '0')
  }

  /** A counter field is a digit string of at least two characters that
      reads back as the number it shows; below 100 it is exactly two. */
  lemma FieldReadsBack(v: nat)
    ensures AllDigits(Field(v))
    ensures ParseDecimal(Field(v)) == v
    ensures 2 <= |Field(v)|
    ensures v < 100 ==> |Field(v)| == 2
  {
    var s := ToDecimal(v);
    var f := Field(v);
    var z := f[..|f| - |s|];
    assert f == z + s;
    ParseLeadingZeros(z, s);
    ParseToDecimal(v);
    ToDecimalShort(v);
  }

  /** The "position / total" counter text. */
  function Counter(position: nat, total: nat): (r: string)
    ensures 7 <= |r|
    ensures position < 100 && total < 100 ==>
      && |r| == 7
      && r[2..5] == " / "
      && AllDigits(r[..2]) && ParseDecimal(r[..2]) == position
      && AllDigits(r[5..]) && ParseDecimal(r[5..]) == total
  {
    FieldReadsBack(position);
    FieldReadsBack(total);
    var r := Field(position) + " / " + Field(total);
    assert position < 100 && total < 100 ==> r[..2] == Field(position) && r[5..] == Field(total);
    r
  }

  /** Splits counter text at its first space, checks the " / " separator
      there and reads both numbers back; anything else reads as (0, 0). */
  function ParseCounter(text: string): (r: (nat, nat))
  {
    var i := FirstSpace(text);
    if i + 3 <= |text| && text[i..i + 3] == " / " && AllDigits(text[..i]) && AllDigits(text[i + 3..])
    then (ParseDecimal(text[..i]), ParseDecimal(text[i + 3..]))
    else (0, 0)
  }

  function FirstSpace(text: string): (i: nat)
    ensures i <= |text|
    ensures forall k :: 0 <= k < i ==> text[k] != ' '
    ensures i < |text| ==> text[i] == ' '
  {
    if |text| == 0 then 0
    else if text[0] == ' ' then 0
    else 1 + FirstSpace(text[1..])
  }

  /** The counter text determines the position and total it shows. */
  lemma CounterRoundTrip(position: nat, total: nat)
    ensures ParseCounter(Counter(position, total)) == (position, total)
  {
    FieldReadsBack(position);
    FieldReadsBack(total);
    ParseJoined(Field(position), Field(total));
  }

  lemma ParseJoined(a: string, b: string)
    requires AllDigits(a) && AllDigits(b)
    ensures ParseCounter(a + " / " + b) == (ParseDecimal(a), ParseDecimal(b))
  {
    var rest := " / " + b;
    var text := a + rest;
    assert a + " / " + b == text;
    FirstSpaceAfterDigits(a, rest);
    assert text[..|a|] == a;
    assert text[|a|..|a| + 3] == " / ";
    assert text[|a| + 3..] == b;
  }

  lemma {:induction false} FirstSpaceAfterDigits(a: string, rest: string)
    requires AllDigits(a)
    requires |rest| > 0 && rest[0] == ' '
    ensures FirstSpace(a + rest) == |a|
    decreases |a|
  {
    if |a| > 0 {
      assert (a + rest)[1..] == a[1..] + rest;
      FirstSpaceAfterDigits(a[1..], rest);
    } else {
      assert a + rest == rest;
    }
  }
}

=== FILE: home_carousel.dfy ===
/** The home page's featured-work carousel and its full-screen modal viewer
    (pages/Home.tsx), as a state machine.

    The carousel keeps an unbounded raw position that an autoplay interval
    advances once per tick.  The arrow buttons move it by one, switch
    autoplay off and (re)arm a single resume timeout.  Five cards (offsets
    -2..2 around the position) are drawn with a visual weight that depends
    only on the distance from the centre.  Clicking the centre card opens the
    modal on the wrapped item; the modal moves within the list without
    wrapping.

    Timers are events.  The interval's callback is `Tick`, which exists only
    while autoplay is on (the effect clears the interval when autoplay is
    switched off).  Each resume timeout carries a fresh token; `resumeTimer`
    holds the token of the one still armed, and `ResumeFired(t)` for any
    other token is a timeout that was cleared and never runs. */
module HomeCarousel {
  import opened Wrappers
  import opened CircularIndex
  import Decimal

  /** `featuredWorks.length`. */
  const FeaturedCount: nat := 6
  /** The initial raw position. */
  const InitialActiveIndex: int := 10000
  /** Labels only: the autoplay period and the quiet time before resuming. */
  const AutoplayPeriodMs: nat := 1000
  const ResumeDelayMs: nat := 3000

  datatype State = State(
    activeIndex: int,          // raw carousel position, never wrapped
    isAutoPlay: bool,
    resumeTimer: Option<nat>,  // token of the armed resume timeout
    nextTimer: nat,            // next fresh timeout token
    selected: Option<nat>)     // `selectedWorkIndex`; None is `null`

  datatype Event =
    | Tick                      // autoplay interval callback
    | PrevArrow                 // `handlePrev`
    | NextArrow                 // `handleNext`
    | ResumeFired(timer: nat)   // a resume timeout elapsing
    | CardClick(offset: int)    // click on the carousel card at `offset`
    | ModalPrev                 // `handleModalPrev`
    | ModalNext                 // `handleModalNext`
    | ModalClose                // the Close button
    | ModalCardClick(index: nat) // click on the modal card `index`

  predicate IsManual(e: Event) {
    e.PrevArrow? || e.NextArrow?
  }

  /** The timer bookkeeping: autoplay is off exactly while a resume timeout
      is armed, and that timeout's token has already been handed out. */
  predicate TimerInv(s: State) {
    && (s.isAutoPlay <==> s.resumeTimer.None?)
    && (s.resumeTimer.Some? ==> s.resumeTimer.value < s.nextTimer)
  }

  /** Every state the page can reach with `n` featured works. */
  predicate Valid(n: nat, s: State) {
    && 0 < n
    && TimerInv(s)
    && (s.selected.Some? ==> s.selected.value < n)
  }

  /** Events the rendered page can produce: five carousel cards, `n` modal cards. */
  predicate WellFormed(n: nat, e: Event) {
    match e
    case CardClick(offset) => -2 <= offset <= 2
    case ModalCardClick(i) => i < n
    case _ => true
  }

  /** The state on mount. */
  function Init(): (s: State)
    ensures Valid(FeaturedCount, s)
    ensures s.isAutoPlay && s.selected.None?
    ensures s.activeIndex == InitialActiveIndex && s.resumeTimer.None?
  {
    State(InitialActiveIndex, true, None, 0, None)
  }

  // ---------------------------------------------------------------------
  // Autoplay and manual navigation
  // ---------------------------------------------------------------------

  /** The interval callback, which adds one to the position; while
      autoplay is off there is no interval, so nothing happens. */
  function AutoTick(s: State): (r: State)
    ensures s.isAutoPlay ==> r.activeIndex == s.activeIndex + 1
    ensures !s.isAutoPlay ==> r == s
    ensures r.(activeIndex := s.activeIndex) == s
  {
    if s.isAutoPlay then s.(activeIndex := s.activeIndex + 1) else s
  }

  /** `handleManualInteraction`: run the move, switch autoplay off, clear
      the armed resume timeout and arm a fresh one. */
  function Interact(s: State, delta: int): (r: State)
    requires delta == -1 || delta == 1
    ensures r.activeIndex == s.activeIndex + delta
    ensures !r.isAutoPlay
    ensures r.resumeTimer.Some? && s.nextTimer <= r.resumeTimer.value < r.nextTimer
    ensures r.selected == s.selected
  {
    s.(activeIndex := s.activeIndex + delta,
       isAutoPlay := false,
       resumeTimer := Some(s.nextTimer),
       nextTimer := s.nextTimer + 1)
  }

  /** A resume timeout elapsing: only the armed one switches autoplay back on. */
  function Resume(s: State, t: nat): (r: State)
    ensures s.resumeTimer == Some(t) ==> r.isAutoPlay && r.resumeTimer.None?
    ensures s.resumeTimer != Some(t) ==> r == s
    ensures r.activeIndex == s.activeIndex && r.selected == s.selected
  {
    if s.resumeTimer == Some(t) then s.(isAutoPlay := true, resumeTimer := None) else s
  }

  // ---------------------------------------------------------------------
  // The five-card window
  // ---------------------------------------------------------------------

  /** Visual weight of a card; scale and opacity are in hundredths
      (1.15 is 115), blur in pixels, grayscale in percent. */
  datatype Weight = Weight(scalePct: nat, opacityPct: nat, zIndex: nat, blurPx: nat, grayscalePct: nat)

  function Abs(x: int): nat {
    if x < 0 then -x else x
  }

  /** The per-offset style: centre, distance one, and everything further. */
  function WeightAt(offset: int): (w: Weight)
    ensures w.zIndex <= 20 && (w.zIndex == 20 <==> offset == 0)
    ensures w.blurPx == 0 <==> offset == 0
    ensures w.scalePct <= 115 && (w.scalePct == 115 <==> offset == 0)
    ensures w.opacityPct <= 100 && (w.opacityPct == 100 <==> offset == 0)
  {
    var isCenter := offset == 0;
    if isCenter then Weight(115, 100, 20, 0, 0)
    else if Abs(offset) == 1 then Weight(90, 60, 10, 1, 100)
    else Weight(80, 30, 0, 2, 100)
  }

  /** The style depends on the distance from the centre only. */
  lemma WeightSymmetric(offset: int)
    ensures WeightAt(-offset) == WeightAt(offset)
  {
  }

  /** Further from the centre never means more prominent. */
  lemma WeightMonotone(o1: int, o2: int)
    requires Abs(o1) <= Abs(o2)
    ensures WeightAt(o1).zIndex >= WeightAt(o2).zIndex
    ensures WeightAt(o1).blurPx <= WeightAt(o2).blurPx
    ensures WeightAt(o1).scalePct >= WeightAt(o2).scalePct
    ensures WeightAt(o1).opacityPct >= WeightAt(o2).opacityPct
  {
  }

  /** One rendered card: its offset, raw position (the React key), the
      item it shows and its style. */
  datatype Card = Card(offset: int, position: int, item: nat, weight: Weight)

  /** The cards for offsets -2..2 around raw position `a`. */
  function Window(n: nat, a: int): (w: seq<Card>)
    requires n > 0
    ensures |w| == 5
    ensures forall k :: 0 <= k < 5 ==> w[k].item < n && w[k].offset == k - 2
    ensures forall k :: 0 <= k < 5 ==> w[k].position == a + k - 2 && w[k].weight == WeightAt(k - 2)
  {
    seq(5, k requires 0 <= k < 5 =>
      Card(k - 2, a + k - 2, Wrap(a + k - 2, n), WeightAt(k - 2)))
  }

  /** The centre card shows the wrapped position, and its neighbours are
      the previous and next items of the list, cyclically. */
  lemma {:induction false} WindowNeighbours(n: nat, a: int)
    requires n > 0
    ensures Window(n, a)[2].item == Wrap(a, n)
    ensures Window(n, a)[3].item == (if Wrap(a, n) == n - 1 then 0 else Wrap(a, n) + 1)
    ensures Window(n, a)[1].item == (if Wrap(a, n) == 0 then n - 1 else Wrap(a, n) - 1)
  {
    WrapSucc(a, n);
    WrapPred(a, n);
  }

  /** With at least five works the five cards show five different works. */
  lemma {:induction false} WindowItemsDistinct(n: nat, a: int)
    requires n >= 5
    ensures forall j, k :: 0 <= j < k < 5 ==> Window(n, a)[j].item != Window(n, a)[k].item
  {
    var w := Window(n, a);
    forall j, k | 0 <= j < k < 5
      ensures w[j].item != w[k].item
    {
      WrapInjectiveWithinLap(a + j - 2, a + k - 2, n);
    }
  }

  /** Advancing the position by one slides every card one slot to the left. */
  lemma WindowSlides(n: nat, a: int, k: int)
    requires n > 0 && 0 <= k < 4
    ensures Window(n, a + 1)[k].item == Window(n, a)[k + 1].item
  {
  }

  /** A whole lap of the position shows the same cards. */
  lemma {:induction false} WindowPeriodic(n: nat, a: int)
    requires n > 0
    ensures forall k :: 0 <= k < 5 ==> Window(n, a + n)[k].item == Window(n, a)[k].item
  {
    forall k | 0 <= k < 5
      ensures Window(n, a + n)[k].item == Window(n, a)[k].item
    {
      WrapPeriodic(a + k - 2, n);
      assert a + n + k - 2 == (a + k - 2) + n;
    }
  }

  /** A click on a carousel card: only the centre card opens the modal, on
      the item it shows. */
  function ClickCard(n: nat, s: State, offset: int): (r: State)
    requires n > 0
    ensures offset != 0 ==> r == s
    ensures offset == 0 ==> r.selected == Some(Window(n, s.activeIndex)[2].item)
    ensures offset == 0 ==> r.(selected := s.selected) == s
  {
    var isCenter := offset == 0;
    if isCenter then s.(selected := Some(Wrap(s.activeIndex, n))) else s
  }

  // ---------------------------------------------------------------------
  // The modal
  // ---------------------------------------------------------------------

  /** `handleModalPrev`: one item back, stopping at the first. */
  function ModalPrevious(s: State): (r: State)
    ensures r.selected.None? <==> s.selected.None?
    ensures s.selected.Some? && s.selected.value > 0 ==> r.selected == Some(s.selected.value - 1)
    ensures s.selected == Some(0) ==> r == s
    ensures r.(selected := s.selected) == s
  {
    if s.selected.Some? then
      var prev := s.selected.value;
      s.(selected := Some(if prev > 0 then prev - 1 else prev))
    else s
  }

  /** `handleModalNext`: one item forward, stopping at the last. */
  function ModalNextItem(n: nat, s: State): (r: State)
    ensures r.selected.None? <==> s.selected.None?
    ensures s.selected.Some? && s.selected.value + 1 < n ==> r.selected == Some(s.selected.value + 1)
    ensures s.selected.Some? && s.selected.value + 1 >= n ==> r == s
    ensures r.(selected := s.selected) == s
  {
    if s.selected.Some? then
      var prev := s.selected.value;
      s.(selected := Some(if prev < n - 1 then prev + 1 else prev))
    else s
  }

  /** Back and forward in the modal undo each other away from the ends. */
  lemma ModalMovesInverse(n: nat, s: State)
    requires Valid(n, s) && s.selected.Some?
    ensures s.selected.value + 1 < n ==> ModalPrevious(ModalNextItem(n, s)) == s
    ensures s.selected.value > 0 ==> ModalNextItem(n, ModalPrevious(s)) == s
  {
  }

  /** The Close button. */
  function CloseModal(s: State): (r: State)
    ensures r.selected.None?
    ensures r.(selected := s.selected) == s
  {
    s.(selected := None)
  }

  /** A click on modal card `i`: a peripheral card becomes the selection,
      the selected card does nothing. */
  function SelectInModal(s: State, i: nat): (r: State)
    ensures r.selected == Some(i)
    ensures s.selected == Some(i) ==> r == s
    ensures r.(selected := s.selected) == s
  {
    if s.selected != Some(i) then s.(selected := Some(i)) else s
  }

  /** The "NN / NN" counter, rendered only while the modal is open. */
  function ModalCounter(n: nat, s: State): (r: Option<string>)
    ensures r.Some? <==> s.selected.Some?
    ensures r.Some? ==> Decimal.ParseCounter(r.value) == (s.selected.value + 1, n)
    ensures r.Some? && s.selected.value + 1 < 100 && n < 100 ==> |r.value| == 7 && r.value[2..5] == " / "
  {
    if s.selected.Some? then
      Decimal.CounterRoundTrip(s.selected.value + 1, n);
      Some(Decimal.Counter(s.selected.value + 1, n))
    else None
  }

  // ---------------------------------------------------------------------
  // Dispatch and runs
  // ---------------------------------------------------------------------

  function Step(n: nat, s: State, e: Event): (r: State)
    requires n > 0
    ensures Valid(n, s) && WellFormed(n, e) ==> Valid(n, r)
    ensures TimerInv(s) ==> TimerInv(r)
    ensures r.nextTimer >= s.nextTimer
    ensures r.activeIndex != s.activeIndex ==> e.Tick? || IsManual(e)
    ensures TimerInv(s) && r.isAutoPlay && !s.isAutoPlay ==> e == ResumeFired(s.resumeTimer.value)
    // what each event does
    ensures e.Tick? && s.isAutoPlay ==> r == s.(activeIndex := s.activeIndex + 1)
    ensures e.Tick? && !s.isAutoPlay ==> r == s
    ensures e.PrevArrow? ==> r.activeIndex == s.activeIndex - 1 && !r.isAutoPlay && r.selected == s.selected
    ensures e.NextArrow? ==> r.activeIndex == s.activeIndex + 1 && !r.isAutoPlay && r.selected == s.selected
    ensures IsManual(e) ==> r.resumeTimer == Some(s.nextTimer) && r.nextTimer == s.nextTimer + 1
    ensures e.ResumeFired? && s.resumeTimer == Some(e.timer) ==> r == s.(isAutoPlay := true, resumeTimer := None)
    ensures e.ResumeFired? && s.resumeTimer != Some(e.timer) ==> r == s
    ensures e == CardClick(0) ==> r == s.(selected := Some(Wrap(s.activeIndex, n)))
    ensures e.CardClick? && e.offset != 0 ==> r == s
    ensures e.ModalPrev? && s.selected.Some? && s.selected.value > 0 ==> r == s.(selected := Some(s.selected.value - 1))
    ensures e.ModalPrev? && (s.selected.None? || s.selected == Some(0)) ==> r == s
    ensures e.ModalNext? && s.selected.Some? && s.selected.value + 1 < n ==> r == s.(selected := Some(s.selected.value + 1))
    ensures e.ModalNext? && (s.selected.None? || s.selected.value + 1 >= n) ==> r == s
    ensures e.ModalClose? ==> r == s.(selected := None)
    ensures e.ModalCardClick? ==> r == s.(selected := Some(e.index))
  {
    match e
    case Tick => AutoTick(s)
    case PrevArrow => Interact(s, -1)
    case NextArrow => Interact(s, 1)
    case ResumeFired(t) => Resume(s, t)
    case CardClick(offset) => ClickCard(n, s, offset)
    case ModalPrev => ModalPrevious(s)
    case ModalNext => ModalNextItem(n, s)
    case ModalClose => CloseModal(s)
    case ModalCardClick(i) => SelectInModal(s, i)
  }

  function Run(n: nat, s: State, es: seq<Event>): State
    requires n > 0
    decreases |es|
  {
    if |es| == 0 then s else Run(n, Step(n, s, es[0]), es[1..])
  }

  /** Every reachable state keeps the selection in range and the timer
      bookkeeping consistent. */
  lemma {:induction false} RunPreservesValid(n: nat, s: State, es: seq<Event>)
    requires Valid(n, s)
    requires forall k :: 0 <= k < |es| ==> WellFormed(n, es[k])
    ensures Valid(n, Run(n, s, es))
    decreases |es|
  {
    if |es| > 0 {
      RunPreservesValid(n, Step(n, s, es[0]), es[1..]);
    }
  }

  /** While autoplay is on, k ticks advance the position by exactly k. */
  lemma {:induction false} TicksAdvance(n: nat, s: State, k: nat)
    requires n > 0 && s.isAutoPlay
    ensures Run(n, s, seq(k, _ => Tick)) == s.(activeIndex := s.activeIndex + k)
    decreases k
  {
    if k > 0 {
      var ticks := seq(k, _ => Tick);
      assert ticks[1..] == seq(k - 1, _ => Tick);
      TicksAdvance(n, Step(n, s, Tick), k - 1);
    }
  }

  /** While autoplay is off, ticks change nothing. */
  lemma {:induction false} TicksIdle(n: nat, s: State, k: nat)
    requires n > 0 && !s.isAutoPlay
    ensures Run(n, s, seq(k, _ => Tick)) == s
    decreases k
  {
    if k > 0 {
      var ticks := seq(k, _ => Tick);
      assert ticks[1..] == seq(k - 1, _ => Tick);
      TicksIdle(n, s, k - 1);
    }
  }

  /** A new interaction clears the timeout armed by an earlier one: that
      timeout's token no longer resumes autoplay. */
  lemma InteractionCancelsPendingResume(n: nat, s: State, e: Event, t: nat)
    requires n > 0 && TimerInv(s) && IsManual(e)
    requires t < s.nextTimer
    ensures Step(n, Step(n, s, e), ResumeFired(t)) == Step(n, s, e)
  {
  }

  /** Autoplay resumes only when the timeout armed by the LAST manual
      interaction fires: after a manual move and any run of other events,
      autoplay is on exactly when that timeout's token has fired. */
  lemma {:induction false} ResumeOnlyAfterLastInteraction(n: nat, s: State, m: Event, es: seq<Event>)
    requires n > 0 && TimerInv(s)
    requires IsManual(m)
    requires forall k :: 0 <= k < |es| ==> !IsManual(es[k])
    ensures Run(n, Step(n, s, m), es).isAutoPlay <==> ResumeFired(s.nextTimer) in es
  {
    QuietRun(n, Step(n, s, m), s.nextTimer, es);
  }

  lemma {:induction false} QuietRun(n: nat, u: State, t: nat, es: seq<Event>)
    requires n > 0 && TimerInv(u)
    requires u.resumeTimer == Some(t) || u.isAutoPlay
    requires t < u.nextTimer
    requires forall k :: 0 <= k < |es| ==> !IsManual(es[k])
    ensures u.resumeTimer == Some(t) ==> (Run(n, u, es).isAutoPlay <==> ResumeFired(t) in es)
    ensures u.isAutoPlay ==> Run(n, u, es).isAutoPlay
    decreases |es|
  {
    if |es| > 0 {
      var u' := Step(n, u, es[0]);
      assert es == [es[0]] + es[1..];
      QuietRun(n, u', t, es[1..]);
    }
  }

  /** The page starts on the item at raw position 10000, which is the
      fifth work of six. */
  lemma InitialCentreItem()
    ensures Window(FeaturedCount, Init().activeIndex)[2].item == 4
  {
    WindowNeighbours(FeaturedCount, InitialActiveIndex);
  }
}

=== FILE: media_controls.dfy ===
/** The mute overlay on the active Works carousel video (`MediaControls`
    in pages/Works.tsx).  Each interaction shows the overlay and restarts
    one hide timeout; the overlay hides when the timeout armed by the last
    interaction elapses.  Timeouts carry fresh tokens as in the home
    carousel: `hideTimer` is the armed one, and a `HideFired` for any other
    token is a timeout that was cleared and never runs. */
module MediaControls {
  import opened Wrappers

  /** Label only: the delay before the overlay hides. */
  const HideDelayMs: nat := 2000

  datatype State = State(
    visible: bool,
    hideTimer: Option<nat>,  // token of the armed hide timeout
    nextTimer: nat)          // next fresh timeout token

  datatype Event = Interaction | HideFired(timer: nat)

  /** The overlay is visible exactly while a hide timeout is armed, and
      that timeout's token has already been handed out. */
  predicate TimerInv(s: State) {
    && (s.visible <==> s.hideTimer.Some?)
    && (s.hideTimer.Some? ==> s.hideTimer.value < s.nextTimer)
  }

  /** `handleInteraction`: show, clear the armed timeout, arm a fresh one. */
  function Interact(s: State): (r: State)
    ensures r.visible
    ensures r.hideTimer.Some? && s.nextTimer <= r.hideTimer.value < r.nextTimer
    ensures TimerInv(r)
  {
    s.(visible := true, hideTimer := Some(s.nextTimer), nextTimer := s.nextTimer + 1)
  }

  /** A fresh overlay: it starts visible and its mount effect runs one
      interaction.  Tokens are drawn from `firstTimer` on, so no timeout of
      an earlier overlay can be mistaken for this one's. */
  function Mount(firstTimer: nat): (r: State)
    ensures r.visible && TimerInv(r)
    ensures r.hideTimer == Some(firstTimer)
  {
    Interact(State(true, None, firstTimer))
  }

  /** A hide timeout elapsing: only the armed one hides the overlay. */
  function Hide(s: State, t: nat): (r: State)
    ensures s.hideTimer == Some(t) ==> !r.visible && r.hideTimer.None?
    ensures s.hideTimer != Some(t) ==> r == s
    ensures TimerInv(s) ==> TimerInv(r)
  {
    if s.hideTimer == Some(t) then s.(visible := false, hideTimer := None) else s
  }

  function Step(s: State, e: Event): (r: State)
    ensures TimerInv(s) ==> TimerInv(r)
    ensures r.nextTimer >= s.nextTimer
    ensures TimerInv(s) && s.visible && !r.visible ==> e == HideFired(s.hideTimer.value)
    ensures e.Interaction? ==> r.visible && r.hideTimer == Some(s.nextTimer) && r.nextTimer == s.nextTimer + 1
    ensures e.HideFired? && s.hideTimer == Some(e.timer) ==> !r.visible && r.hideTimer.None? && r.nextTimer == s.nextTimer
    ensures e.HideFired? && s.hideTimer != Some(e.timer) ==> r == s
  {
    match e
    case Interaction => Interact(s)
    case HideFired(t) => Hide(s, t)
  }

  function Run(s: State, es: seq<Event>): State
    decreases |es|
  {
    if |es| == 0 then s else Run(Step(s, es[0]), es[1..])
  }

  /** After an interaction, and until the next one, the overlay is hidden
      exactly when the timeout armed by that interaction has fired. */
  lemma {:induction false} HidesOnlyAfterLastInteraction(s: State, es: seq<Event>)
    requires TimerInv(s)
    requires forall k :: 0 <= k < |es| ==> !es[k].Interaction?
    ensures !Run(Interact(s), es).visible <==> HideFired(s.nextTimer) in es
  {
    QuietRun(Interact(s), s.nextTimer, es);
  }

  lemma {:induction false} QuietRun(u: State, t: nat, es: seq<Event>)
    requires TimerInv(u)
    requires u.hideTimer == Some(t) || !u.visible
    requires forall k :: 0 <= k < |es| ==> !es[k].Interaction?
    ensures u.hideTimer == Some(t) ==> (!Run(u, es).visible <==> HideFired(t) in es)
    ensures !u.visible ==> !Run(u, es).visible
    decreases |es|
  {
    if |es| > 0 {
      assert es == [es[0]] + es[1..];
      QuietRun(Step(u, es[0]), t, es[1..]);
    }
  }

  /** An interaction clears the timeout armed before it. */
  lemma InteractionCancelsPendingHide(s: State, t: nat)
    requires TimerInv(s) && t < s.nextTimer
    ensures Hide(Interact(s), t) == Interact(s)
  {
  }
}

=== FILE: works_viewer.dfy ===
/** The Works page (pages/Works.tsx): a gallery of two sections of videos
    and a full-screen carousel over the section last clicked.

    The carousel moves within its list without wrapping, by arrow buttons,
    the arrow keys, a horizontal swipe of more than 50 px, or a click on a
    peripheral card.  Keys act only in carousel mode.  Entering carousel
    mode forces the sound off, and a video can sound only if it is the
    active one.  The active card carries a `MediaControls` overlay, which
    is mounted afresh whenever the active card changes.

    React effects are folded into each step: `Step` applies the handler and
    then the effects its state change triggers (the mute-on-entry effect
    and the remount of the overlay). */
module WorksViewer {
  import opened Wrappers
  import MediaControls
  import Decimal

  /** The minimum horizontal travel, in pixels, that counts as a swipe.
      Pointer coordinates (`clientX`) are fractional, so they are reals. */
  const SwipeThresholdPx: real := 50.0

  datatype ViewMode = Gallery | Carousel
  datatype Section = Vertical | Horizontal

  /** How many works each section lists. */
  datatype Catalog = Catalog(verticalCount: nat, horizontalCount: nat)

  /** `verticalWorks` has four entries and `horizontalWorks` three. */
  const SourceCatalog: Catalog := Catalog(4, 3)

  /** The length of `currentWorks` for a section. */
  function Len(c: Catalog, section: Section): nat {
    match section
    case Vertical => c.verticalCount
    case Horizontal => c.horizontalCount
  }

  datatype State = State(
    viewMode: ViewMode,
    section: Section,          // `activeSection`
    activeIndex: int,
    isMuted: bool,
    dragStartX: real,          // `dragStartX.current`
    isDragging: bool,          // `isDragging.current`
    controls: MediaControls.State)  // the active card's overlay

  datatype Event =
    | WorkClick(index: nat, section: Section)  // a gallery tile
    | PrevArrow                                // carousel `<` button
    | NextArrow                                // carousel `>` button
    | KeyDown(key: string)                     // window `keydown`
    | BackToGallery                            // "Back to Gallery" button
    | PointerDown(x: real)                     // mousedown / touchstart
    | PointerUp(x: real)                       // mouseup / touchend
    | CardClick(index: nat)                    // a carousel card
    | ToggleMute                               // click on the overlay
    | ControlsHideFired(timer: nat)            // the overlay's hide timeout

  /** Every state the page can reach: both sections are non-empty, the
      active index lies in the current section, and the overlay's timers
      are consistent. */
  predicate Valid(c: Catalog, s: State) {
    && 0 < c.verticalCount && 0 < c.horizontalCount
    && 0 <= s.activeIndex < Len(c, s.section)
    && MediaControls.TimerInv(s.controls)
  }

  /** Events the rendered page can produce in state `s`: tiles and cards
      exist only for indices of their lists. */
  predicate WellFormed(c: Catalog, s: State, e: Event) {
    match e
    case WorkClick(i, section) => i < Len(c, section)
    case CardClick(i) => i < Len(c, s.section)
    case _ => true
  }

  /** The state on mount. */
  function Init(): (s: State)
    ensures Valid(SourceCatalog, s)
    ensures s.viewMode == Gallery && s.isMuted && !s.isDragging
    ensures s.section == Vertical && s.activeIndex == 0
    ensures s.controls.visible && s.controls.hideTimer.Some?
  {
    State(Gallery, Vertical, 0, true, 0.0, false, MediaControls.Mount(0))
  }

  // ---------------------------------------------------------------------
  // Handlers (before effects)
  // ---------------------------------------------------------------------

  /** `handleWorkClick(index, type)`. */
  function SelectWork(s: State, i: nat, section: Section): (r: State)
    ensures r.viewMode == Carousel && r.section == section && r.activeIndex == i
    ensures r.(section := s.section, activeIndex := s.activeIndex, viewMode := s.viewMode) == s
  {
    s.(section := section, activeIndex := i, viewMode := Carousel)
  }

  /** `handlePrev`: one item back, stopping at the first. */
  function Previous(s: State): (r: State)
    ensures s.activeIndex > 0 ==> r.activeIndex == s.activeIndex - 1
    ensures s.activeIndex <= 0 ==> r == s
    ensures r.(activeIndex := s.activeIndex) == s
  {
    if s.activeIndex > 0 then s.(activeIndex := s.activeIndex - 1) else s
  }

  /** `handleNext`: one item forward, stopping at the last. */
  function Next(c: Catalog, s: State): (r: State)
    ensures s.activeIndex < Len(c, s.section) - 1 ==> r.activeIndex == s.activeIndex + 1
    ensures s.activeIndex >= Len(c, s.section) - 1 ==> r == s
    ensures r.(activeIndex := s.activeIndex) == s
  {
    if s.activeIndex < Len(c, s.section) - 1 then s.(activeIndex := s.activeIndex + 1) else s
  }

  /** `handleKeyDown`: the arrows navigate and Escape leaves, in carousel
      mode only. */
  function Key(c: Catalog, s: State, key: string): (r: State)
    ensures s.viewMode == Gallery ==> r == s
    ensures key != "ArrowLeft" && key != "ArrowRight" && key != "Escape" ==> r == s
    ensures r.section == s.section && r.isMuted == s.isMuted && r.controls == s.controls
    ensures s.viewMode == Carousel && key == "ArrowLeft" ==> r == Previous(s)
    ensures s.viewMode == Carousel && key == "ArrowRight" ==> r == Next(c, s)
    ensures s.viewMode == Carousel && key == "Escape" ==> r == s.(viewMode := Gallery)
  {
    if s.viewMode == Carousel then
      if key == "ArrowLeft" then Previous(s)
      else if key == "ArrowRight" then Next(c, s)
      else if key == "Escape" then s.(viewMode := Gallery)
      else s
    else s
  }

  /** `handleMouseDown`: start tracking a gesture at `x`. */
  function Press(s: State, x: real): (r: State)
    ensures r.isDragging && r.dragStartX == x
    ensures r.(isDragging := s.isDragging, dragStartX := s.dragStartX) == s
  {
    s.(isDragging := true, dragStartX := x)
  }

  /** `handleMouseUp`: an untracked release is ignored; otherwise the
      gesture ends and a travel beyond the threshold moves by one item. */
  function Release(c: Catalog, s: State, x: real): (r: State)
    ensures !s.isDragging ==> r == s
    ensures !r.isDragging
    ensures s.isDragging ==> r.(activeIndex := s.activeIndex, isDragging := true) == s
    ensures s.isDragging && s.dragStartX - x > SwipeThresholdPx ==> r.activeIndex == Next(c, s).activeIndex
    ensures s.isDragging && s.dragStartX - x < -SwipeThresholdPx ==> r.activeIndex == Previous(s).activeIndex
    ensures -SwipeThresholdPx <= s.dragStartX - x <= SwipeThresholdPx ==> r.activeIndex == s.activeIndex
  {
    if !s.isDragging then s
    else
      var s' := s.(isDragging := false);
      var diff := s.dragStartX - x;
      if diff > SwipeThresholdPx then Next(c, s')
      else if diff < -SwipeThresholdPx then Previous(s')
      else s'
  }

  /** A click on carousel card `i`: a peripheral card becomes active, the
      active card does nothing. */
  function Focus(s: State, i: nat): (r: State)
    ensures r.activeIndex == i
    ensures i == s.activeIndex ==> r == s
    ensures r.(activeIndex := s.activeIndex) == s
  {
    if i != s.activeIndex then s.(activeIndex := i) else s
  }

  /** The overlay's click: flip the sound and count as an overlay interaction. */
  function FlipMute(s: State): (r: State)
    ensures r.isMuted == !s.isMuted
    ensures r.controls == MediaControls.Interact(s.controls)
    ensures r.(isMuted := s.isMuted, controls := s.controls) == s
  {
    s.(isMuted := !s.isMuted, controls := MediaControls.Interact(s.controls))
  }

  /** The handler an event runs, before any effect. */
  function Handle(c: Catalog, s: State, e: Event): State {
    match e
    case WorkClick(i, section) => SelectWork(s, i, section)
    case PrevArrow => Previous(s)
    case NextArrow => Next(c, s)
    case KeyDown(key) => Key(c, s, key)
    case BackToGallery => s.(viewMode := Gallery)
    case PointerDown(x) => Press(s, x)
    case PointerUp(x) => Release(c, s, x)
    case CardClick(i) => Focus(s, i)
    case ToggleMute => FlipMute(s)
    case ControlsHideFired(t) => s.(controls := MediaControls.Hide(s.controls, t))
  }

  // ---------------------------------------------------------------------
  // Effects
  // ---------------------------------------------------------------------

  /** The active card's React key is the id of `currentWorks[activeIndex]`;
      ids are distinct within and across the two lists, so the key changes
      exactly when the section or the index does. */
  predicate SameActiveCard(a: State, b: State) {
    a.section == b.section && a.activeIndex == b.activeIndex
  }

  /** The effects a render from `before` to `after` triggers: switching
      into carousel mode forces the sound off, and a new active card mounts
      a fresh overlay (the old one's cleanup clears its hide timeout). */
  function Effects(before: State, after: State): (r: State)
    ensures before.viewMode != Carousel && after.viewMode == Carousel ==> r.isMuted
    ensures !(before.viewMode != Carousel && after.viewMode == Carousel) ==> r.isMuted == after.isMuted
    ensures !SameActiveCard(before, after) ==> r.controls.visible && r.controls.hideTimer == Some(after.controls.nextTimer)
    ensures SameActiveCard(before, after) ==> r.controls == after.controls
    ensures r.(isMuted := after.isMuted, controls := after.controls) == after
  {
    var isMuted := if before.viewMode != Carousel && after.viewMode == Carousel then true else after.isMuted;
    var controls := if SameActiveCard(before, after) then after.controls
                    else MediaControls.Mount(after.controls.nextTimer);
    after.(isMuted := isMuted, controls := controls)
  }

  function Step(c: Catalog, s: State, e: Event): (r: State)
    ensures Valid(c, s) && WellFormed(c, s, e) ==> Valid(c, r)
    ensures s.viewMode == Gallery && r.viewMode == Carousel ==> r.isMuted
    ensures s.viewMode == Gallery && e.KeyDown? ==> r == s
    ensures r.isMuted != s.isMuted ==> e.ToggleMute? || (s.viewMode == Gallery && r.viewMode == Carousel)
    ensures r.viewMode != s.viewMode ==> e.WorkClick? || e.KeyDown? || e.BackToGallery?
    // what each event does
    ensures e.PrevArrow? && s.activeIndex > 0 ==> r.activeIndex == s.activeIndex - 1
    ensures e.NextArrow? && s.activeIndex < Len(c, s.section) - 1 ==> r.activeIndex == s.activeIndex + 1
    ensures e.PrevArrow? || e.NextArrow? ==> r.(activeIndex := s.activeIndex, controls := s.controls) == s
    ensures e.PrevArrow? && s.activeIndex <= 0 ==> r == s
    ensures e.NextArrow? && s.activeIndex >= Len(c, s.section) - 1 ==> r == s
    ensures e.BackToGallery? ==> r == s.(viewMode := Gallery)
    ensures e.CardClick? ==> r.activeIndex == e.index && r.(activeIndex := s.activeIndex, controls := s.controls) == s
    ensures e.CardClick? && e.index != s.activeIndex ==> r.controls.visible
    ensures e.CardClick? && e.index == s.activeIndex ==> r == s
    ensures e.ControlsHideFired? && s.controls.hideTimer == Some(e.timer) ==> !r.controls.visible
    ensures e.ControlsHideFired? ==> r.(controls := s.controls) == s
    ensures e.ControlsHideFired? && s.controls.hideTimer != Some(e.timer) ==> r == s
    ensures e.WorkClick? ==> r.isDragging == s.isDragging && r.dragStartX == s.dragStartX
    ensures e.KeyDown? && e.key != "ArrowLeft" && e.key != "ArrowRight" && e.key != "Escape" ==> r == s
    ensures r.isDragging && !s.isDragging ==> e.PointerDown?
  {
    Effects(s, Handle(c, s, e))
  }

  // ---------------------------------------------------------------------
  // Properties
  // ---------------------------------------------------------------------

  /** Back and forward undo each other away from the ends. */
  lemma NavigationInverse(c: Catalog, s: State)
    requires Valid(c, s)
    ensures s.activeIndex + 1 < Len(c, s.section) ==> Previous(Next(c, s)) == s
    ensures s.activeIndex > 0 ==> Next(c, Previous(s)) == s
  {
  }

  /** In carousel mode the left arrow key is the `<` button, the right
      arrow key the `>` button and Escape the back button. */
  lemma KeysMatchButtons(c: Catalog, s: State)
    requires s.viewMode == Carousel
    ensures Step(c, s, KeyDown("ArrowLeft")) == Step(c, s, PrevArrow)
    ensures Step(c, s, KeyDown("ArrowRight")) == Step(c, s, NextArrow)
    ensures Step(c, s, KeyDown("Escape")) == Step(c, s, BackToGallery)
  {
  }

  /** A press at `x0` followed by a release at `x1`: the gesture always
      ends, a travel of more than 50 px to the left shows the next item,
      more than 50 px to the right the previous one, and anything shorter
      leaves the active item alone.  At the ends of the list the move is
      clamped. */
  lemma {:induction false} SwipeGesture(c: Catalog, s: State, x0: real, x1: real)
    requires Valid(c, s)
    ensures var r := Step(c, Step(c, s, PointerDown(x0)), PointerUp(x1));
      && !r.isDragging
      && Valid(c, r)
      && r.viewMode == s.viewMode && r.section == s.section && r.isMuted == s.isMuted
      && r.activeIndex == (if x0 - x1 > SwipeThresholdPx then Next(c, s).activeIndex
                           else if x0 - x1 < -SwipeThresholdPx then Previous(s).activeIndex
                           else s.activeIndex)
  {
    var p := Step(c, s, PointerDown(x0));
    assert p.isDragging && p.dragStartX == x0 && p.activeIndex == s.activeIndex;
    assert p.section == s.section && p.viewMode == s.viewMode;
  }

  /** From a state that is not tracking a gesture (the mount state, or any
      state after a release), a run with no press in it never starts
      tracking, so a release at its end changes nothing. */
  lemma {:induction false} ReleaseWithoutPressIgnored(c: Catalog, s: State, es: seq<Event>, x: real)
    requires !s.isDragging
    requires forall k :: 0 <= k < |es| ==> !es[k].PointerDown?
    ensures !Run(c, s, es).isDragging
    ensures Step(c, Run(c, s, es), PointerUp(x)) == Run(c, s, es)
    decreases |es|
  {
    if |es| > 0 {
      ReleaseWithoutPressIgnored(c, Step(c, s, es[0]), es[1..], x);
    }
  }

  /** Opening a work from the gallery shows that work, in the list of its
      section, with the sound off. */
  lemma {:induction false} OpenWork(c: Catalog, s: State, i: nat, section: Section)
    requires Valid(c, s) && s.viewMode == Gallery && i < Len(c, section)
    ensures var r := Step(c, s, WorkClick(i, section));
      && r.viewMode == Carousel && r.section == section && r.activeIndex == i
      && r.isMuted
      && Len(c, r.section) == Len(c, section)
      && Valid(c, r)
  {
  }

  /** Whatever path leads into carousel mode, the sound is off on arrival. */
  lemma {:induction false} EnteringCarouselMutes(c: Catalog, s: State, e: Event)
    requires s.viewMode == Gallery
    requires Step(c, s, e).viewMode == Carousel
    ensures Step(c, s, e).isMuted
    ensures e.WorkClick?
  {
  }

  /** The overlay's click flips the sound and shows the overlay; nothing
      else about the page changes, and two clicks restore the sound. */
  lemma {:induction false} ToggleMuteOnlyFlips(c: Catalog, s: State)
    requires Valid(c, s)
    ensures var r := Step(c, s, ToggleMute);
      && r.isMuted == !s.isMuted
      && r.controls.visible
      && r.(isMuted := s.isMuted, controls := s.controls) == s
      && Step(c, r, ToggleMute).isMuted == s.isMuted
  {
  }

  /** Moving to another card shows a fresh overlay whose hide timeout is
      new, so no timeout of the previous overlay can hide it. */
  lemma {:induction false} NewActiveCardShowsOverlay(c: Catalog, s: State, e: Event, t: nat)
    requires Valid(c, s)
    requires !SameActiveCard(s, Step(c, s, e))
    requires t < s.controls.nextTimer
    ensures Step(c, s, e).controls.visible
    ensures Step(c, Step(c, s, e), ControlsHideFired(t)) == Step(c, s, e)
  {
    var r := Step(c, s, e);
    var h := Handle(c, s, e);
    assert h.controls.nextTimer >= s.controls.nextTimer;
    assert r.controls.hideTimer == Some(h.controls.nextTimer);
  }

  // ---------------------------------------------------------------------
  // Sound
  // ---------------------------------------------------------------------

  /** The carousel video's `muted` attribute as written: muted unless it
      is the active video and the page is unmuted. */
  predicate VideoMutedAsWritten(s: State, i: int): (muted: bool)
    ensures i != s.activeIndex ==> muted
    ensures i == s.activeIndex ==> (muted <==> s.isMuted)
  {
    i != s.activeIndex || s.isMuted
  }

  /** The carousel videos that play with sound, as written. */
  function AudibleAsWritten(c: Catalog, s: State): (a: set<int>)
    ensures forall i :: i in a ==> 0 <= i < Len(c, s.section)
    ensures Valid(c, s) ==> a == if s.isMuted then {} else {s.activeIndex}
  {
    set i | 0 <= i < Len(c, s.section) && !VideoMutedAsWritten(s, i)
  }

  /** As written, the only video that can sound is the active one, and it
      sounds exactly when the page is unmuted. */
  lemma {:induction false} AtMostOneAudibleAsWritten(c: Catalog, s: State)
    requires Valid(c, s)
    ensures |AudibleAsWritten(c, s)| <= 1
  {
    var a := AudibleAsWritten(c, s);
    if s.isMuted {
      assert a == {};
    } else {
      assert s.activeIndex in a;
      assert a == {s.activeIndex};
    }
  }

  /** The carousel stays mounted (only hidden) in gallery mode, so as
      written its active video keeps sounding there: open a work, unmute,
      press Escape. */
  lemma AudibleInGalleryAsWritten()
    ensures var r := Step(SourceCatalog,
                      Step(SourceCatalog,
                        Step(SourceCatalog, Init(), WorkClick(0, Vertical)),
                        ToggleMute),
                      KeyDown("Escape"));
      && r.viewMode == Gallery
      && 0 in AudibleAsWritten(SourceCatalog, r)
  {
  }

  /** The intended rule: a video sounds only while the carousel is shown,
      it is the active one, and the page is unmuted. */
  predicate VideoMuted(s: State, i: int): (muted: bool)
    ensures i != s.activeIndex || s.viewMode == Gallery ==> muted
    ensures i == s.activeIndex && s.viewMode == Carousel ==> (muted <==> s.isMuted)
  {
    !(s.viewMode == Carousel && i == s.activeIndex && !s.isMuted)
  }

  /** The carousel videos that play with sound. */
  function Audible(c: Catalog, s: State): (a: set<int>)
    ensures forall i :: i in a ==> 0 <= i < Len(c, s.section)
    ensures Valid(c, s) ==> a == if s.viewMode == Carousel && !s.isMuted then {s.activeIndex} else {}
  {
    set i | 0 <= i < Len(c, s.section) && !VideoMuted(s, i)
  }

  /** With the intended rule at most the active video sounds, only in
      carousel mode and only when unmuted; the gallery is silent. */
  lemma {:induction false} GallerySilent(c: Catalog, s: State)
    requires Valid(c, s)
    ensures |Audible(c, s)| <= 1
    ensures s.viewMode == Gallery ==> Audible(c, s) == {}
  {
    var a := Audible(c, s);
    if s.viewMode == Carousel && !s.isMuted {
      assert s.activeIndex in a;
      assert a == {s.activeIndex};
    } else {
      assert a == {};
    }
  }

  /** The "NN / NN" counter of the carousel header. */
  function HeaderCounter(c: Catalog, s: State): (r: string)
    requires Valid(c, s)
    ensures Decimal.ParseCounter(r) == (s.activeIndex + 1, Len(c, s.section))
    ensures s.activeIndex + 1 < 100 && Len(c, s.section) < 100 ==> |r| == 7 && r[2..5] == " / "
  {
    Decimal.CounterRoundTrip(s.activeIndex + 1, Len(c, s.section));
    Decimal.Counter(s.activeIndex + 1, Len(c, s.section))
  }

  // ---------------------------------------------------------------------
  // Runs
  // ---------------------------------------------------------------------

  function Run(c: Catalog, s: State, es: seq<Event>): State
    decreases |es|
  {
    if |es| == 0 then s else Run(c, Step(c, s, es[0]), es[1..])
  }

  /** Every event of `es` is one the page can produce when it occurs. */
  predicate Admissible(c: Catalog, s: State, es: seq<Event>)
    decreases |es|
  {
    |es| == 0 || (WellFormed(c, s, es[0]) && Admissible(c, Step(c, s, es[0]), es[1..]))
  }

  /** Any admissible run keeps the active index inside the current list. */
  lemma {:induction false} RunPreservesValid(c: Catalog, s: State, es: seq<Event>)
    requires Valid(c, s) && Admissible(c, s, es)
    ensures Valid(c, Run(c, s, es))
    ensures 0 <= Run(c, s, es).activeIndex < Len(c, Run(c, s, es).section)
    decreases |es|
  {
    if |es| > 0 {
      RunPreservesValid(c, Step(c, s, es[0]), es[1..]);
    }
  }

  /** In the source's catalog, walking the vertical list with the `>`
      button shows items 0, 1, 2, 3 and then stays on 3. */
  lemma ClampAtLastItem()
    ensures var s0 := SelectWork(Init(), 0, Vertical);
      var s1 := Step(SourceCatalog, s0, NextArrow);
      var s2 := Step(SourceCatalog, s1, NextArrow);
      var s3 := Step(SourceCatalog, s2, NextArrow);
      var s4 := Step(SourceCatalog, s3, NextArrow);
      [s1.activeIndex, s2.activeIndex, s3.activeIndex, s4.activeIndex] == [1, 2, 3, 3]
  {
  }
}

=== FILE: wrappers.dfy ===
/** Optional values, standing in for the source's `number | null` and for
    "the timer handle currently held in a ref". */
module Wrappers {

  datatype Option<+T> = None | Some(value: T)
}
